=== FILE: README.md ===
# rotateopt, modelled in Dafny

rotateopt is a small interactive tool. It sets the rotation of a Linux
touchscreen by writing a udev rule that assigns `LIBINPUT_CALIBRATION_MATRIX`.
It works in this order:

1. It prints a numbered menu of four orientations.
2. It reads one line.
3. It reads that line as `input.trim().parse::<usize>().unwrap_or(0)`.
4. It accepts `1..=4` and picks the table entry at that number minus one.
5. It formats the rule text for the entry's matrix string.
6. It writes the text to `/etc/udev/rules.d/98-touchscreen-rotate.rules`.
7. Only if the write succeeded, it runs `sudo udevadm control --reload-rules`.

The model covers each of these steps. The modules are:

- `Options`: the optional value the program produces when `parse` fails and `unwrap_or` falls back.
- `Decimal`: decimal digit strings, the `{}` rendering of a number, and `str::parse::<usize>`.
  - Parsing is modelled as Rust's `from_str_radix` does it for an unsigned type on a 64-bit target.
  - An empty string is an error, and so is a lone sign.
  - One leading `+` is allowed. A leading `-` is an invalid digit.
  - Only ASCII digits are accepted.
  - Overflow past 2^64 − 1 is detected one checked step at a time.
- `Whitespace`: `str::trim`. It strips Unicode White_Space from both ends, which means the line's newline and any `\r` or other spacing.
- `Calibration`: a reading of the table's coefficient strings as integer matrices.
  - A string is nine integers, one space apart, read as a row-major 3×3 matrix whose bottom row is `0 0 1`.
  - The matrix acts on homogeneous integer points, and matrix products are exact.
- `RotationTable`: the table of `RotationMatrix` records.
  - It holds each entry's label and coefficient string, and the integer matrix each string stands for.
  - It proves that the matrices compose the way the labels say.
- `RuleFormat`: `format!` and the rule.
  - `format!` handles `{{`, `}}` and `{}` holes.
  - It covers the raw-string template of the rule, the rule path, and the rule text.
  - A reader gets the matrix back from a rule.
- `Program`: `main` as a function from what the outside world answers to the effects it causes, in order.
  - The answers are the flush and read results, the write result and the child-process result.
  - The effects are console text, the file write and the child process.
  - `main` also returns an exit status.
- `Findings`: the rule template differs from the one its unit test checks. See "Findings" below.

A note on the closing quote. The unit test's template and expected text
(src/main.rs:94, 98) put a closing quote after the matrix, but the production
template at src/main.rs:56 does not write one. The
model follows the code: `Program.Main` writes `RuleFormat.RuleContent`, which has
no closing quote. `Findings.CorrectedMain` runs the same session with the
intended text.

## Model

| member | source | states |
|---|---|---|
| Decimal.NatToDecimal | src/main.rs:37 | The `{}` rendering of a number is one or more ASCII digits, denotes that number, and has no leading zero |
| Decimal.ParseRendered | src/main.rs:46 | Parsing the rendering of `n` gives `n` back when it fits in `usize`, and an overflow error when it does not |
| Decimal.ParseSignedPadded | src/main.rs:46 | A leading `+` and any number of leading zeros do not change the parsed value |
| Whitespace.Trim | src/main.rs:46 | `trim` returns a contiguous slice of its input with no whitespace at either end. Everything cut off before and after it is whitespace |
| Whitespace.TrimPadded | src/main.rs:46 | Surrounding a trimmed text with any whitespace, such as the newline `read_line` keeps, does not change what `trim` returns |
| Whitespace.TrimIdempotent | src/main.rs:46 | Trimming twice is trimming once |
| Calibration.Split | src/main.rs:17-29 | Splitting a coefficient string at single spaces gives at least one token, no token contains a space, and joining the tokens again restores the string |
| Calibration.SplitJoin | src/main.rs:17-29 | Joining space-free tokens and splitting again gives the same tokens |
| Calibration.ParseRenderMatrix | src/main.rs:17-29 | The nine-token text form of any integer matrix reads back as that matrix |
| RotationTable.TableMatrix | src/main.rs:14-31 | Every table entry stands for an affine matrix: its bottom row is `0 0 1` |
| RotationTable.TableParses | src/main.rs:14-31 | Each entry's coefficient string reads as exactly that entry's integer matrix |
| RotationTable.TableText | src/main.rs:14-31 | Each entry's coefficient string is the text form of its integer matrix, character for character |
| RotationTable.TableTextForm | src/main.rs:17-29 | Each coefficient string is nine tokens one space apart. Every token is `-1`, `0` or `1`, and the last three are `0 0 1` |
| RotationTable.NoRotationIsIdentity | src/main.rs:16-17 | The "default orientation (no rotation)" entry is the identity matrix |
| RotationTable.LeftRightInverse | src/main.rs:19-26 | The counter-clockwise and clockwise quarter turns undo each other, in either order |
| RotationTable.QuarterTurnsSquare | src/main.rs:19-30 | Two counter-clockwise quarter turns make the 180-degree entry, and so do two clockwise ones |
| RotationTable.HalfTurnInvolution | src/main.rs:27-30 | The 180-degree entry undoes itself |
| RotationTable.LeftThrice | src/main.rs:19-26 | Three counter-clockwise quarter turns make the clockwise entry |
| RotationTable.LeftOrderFour | src/main.rs:19-22 | Four counter-clockwise quarter turns are no turn |
| RotationTable.TableNoRotationNeutral | src/main.rs:16-17 | The "no rotation" entry composed with any entry, on either side, is that entry |
| RotationTable.TableLeftRight | src/main.rs:19-26 | Table entry 2 (clockwise) followed by entry 1 (counter-clockwise) is entry 0 (no rotation); `Mul(a, b)` applies `b` first |
| RotationTable.TableRightLeft | src/main.rs:19-26 | Table entry 1 followed by entry 2 is entry 0 |
| RotationTable.TableLeftTwice | src/main.rs:19-30 | Table entry 1 applied twice is entry 3 (upside down) |
| RotationTable.TableRightTwice | src/main.rs:23-30 | Table entry 2 applied twice is entry 3 |
| RotationTable.TableHalfTurnInvolution | src/main.rs:16-30 | Table entry 3 applied twice is entry 0 |
| RotationTable.TableLeftThrice | src/main.rs:19-30 | Table entry 1 after entry 3 is entry 2, so three counter-clockwise turns are one clockwise turn |
| RotationTable.EntriesKeepUnitSquare | src/main.rs:14-31 | Every entry maps the normalised device area [0,1]×[0,1] into itself |
| RuleFormat.Format | src/main.rs:55-58 | `format!` copies a template that has no braces unchanged when it is given no arguments, and rejects it when it is given an argument |
| RuleFormat.FormatLiteral | src/main.rs:56 | Brace-free text at the front of a template is copied verbatim, whatever follows it |
| RuleFormat.FormatEscapes | src/main.rs:56 | `{{` renders as `{` and `}}` renders as `}` |
| RuleFormat.FormatHole | src/main.rs:56-57 | `{}` takes the next argument verbatim, and fails when no argument is left |
| RuleFormat.FormatRuleTemplate | src/main.rs:55-58 | The template formatted with matrix `m` is exactly the rule prefix followed by `m`. The prefix is the three match clauses, then `ENV{LIBINPUT_CALIBRATION_MATRIX}=` and an opening quote, with each doubled brace rendered single. Nothing follows `m` |
| RuleFormat.RuleContent | src/main.rs:55-58 | The rule text for a matrix string is the rule prefix followed by the matrix string, with no closing quote and no newline |
| RuleFormat.MatrixOfRuleContent | src/main.rs:55-58 | The matrix string can be read back from the rule text |
| RuleFormat.RuleContentInjective | src/main.rs:55-58 | Two matrix strings give the same rule text exactly when they are equal |
| RuleFormat.RuleEndsWithMatrix | src/main.rs:55-58 | The rule text ends with the matrix string |
| RuleFormat.RuleIsOneLine | src/main.rs:55-58 | The rule text contains no line break when the matrix string contains none |
| Program.Select | src/main.rs:46-52 | A line selects position `n − 1` exactly when its trimmed text is an optional `+` and digits whose value `n` lies in 1..count (for any count up to the `usize` range). Every other line selects nothing, and a chosen position is always inside the table |
| Decimal.ParseUsize | src/main.rs:46-50 | `parse::<usize>()` succeeds exactly on an optional `+` followed by one or more ASCII digits whose value lies inside the `usize` range, and then yields that value. Everything else is an error: empty text, a lone sign, a `-`, any other character, overflow |
| Program.MenuNumberSelects | src/main.rs:36-52 | Typing the number shown on menu line `i` selects entry `i`. This holds with surrounding whitespace, a `+` sign or leading zeros |
| Program.MenuNumberLine | src/main.rs:36-52 | The menu number followed by the newline selects that menu line's entry |
| Program.RejectsEmpty | src/main.rs:46-50 | An empty line, with or without its newline, selects nothing |
| Program.RejectsBadFirst | src/main.rs:44-50 | A line with no leading whitespace whose first character is not a digit selects nothing, whatever follows it (the newline `read_line` keeps included), unless that character is a `+` with more than whitespace after it |
| Program.RejectsNonNumbers | src/main.rs:46-50 | `abc`, `-1` and a lone `+` select nothing |
| Program.RejectsOutOfRange | src/main.rs:46-50 | `0` and `5` select nothing |
| Program.RejectsOverflow | src/main.rs:46-50 | A number past the `usize` range selects nothing |
| Program.Menu | src/main.rs:33-40 | Before reading, `main` prints the title and the heading. Next come one line per entry in table order, each with its one-based number and label, and then the prompt |
| Program.MenuActsOnNothing | src/main.rs:33-40 | Printing the menu writes no file and runs no command |
| Program.Reload | src/main.rs:65-73 | The reload step attempts `sudo udevadm control --reload-rules` and then prints one message. The message is the success message exactly when the child ran, whatever its exit code; a spawn failure prints the failure message instead |
| Program.Install | src/main.rs:60-76 | The install step attempts to write the rule to the rule path before anything else, and attempts the reload command exactly when the write succeeded |
| Program.Main | src/main.rs:13-79 | `main` as written prints the whole menu first. It fails exactly when flushing or reading fails, with that error, and otherwise returns `Ok(())`. It attempts no write and no command unless the line selects an entry; then it attempts to write the rule prefix followed by that entry's matrix string to the rule path, and attempts the reload exactly when the write succeeded |
| Program.Session | src/main.rs:13-79 | Every run prints the whole menu first, whatever happens next |
| Program.SessionActions | src/main.rs:46-76 | A run attempts no write and no command unless the line selects an entry. When it does, the run attempts to write that entry's rule to the rule path. It then attempts the reload command if and only if the write succeeded |
| Program.SessionExit | src/main.rs:41-78 | The run fails exactly when flushing or reading fails, and with that error. An invalid selection, a failed write or a failed reload still returns `Ok(())` |
| Program.ReloadResultIrrelevant | src/main.rs:65-73 | How the reload command ended changes neither what is written nor the exit status. Its exit code is ignored entirely |
| Program.InvalidSelection | src/main.rs:47-50 | An invalid selection prints the complaint after the menu and does nothing else |
| Program.SessionWritesSelectedRule | src/main.rs:52-60 | Choosing entry `i` writes the rule built from entry `i`'s matrix string first |
| Program.MainWritesSelectedRule | src/main.rs:52-60 | The program as written writes the rule prefix followed by the chosen entry's matrix string |
| Findings.AsWrittenValueUnclosed | src/main.rs:56 | As written, the quote that opens the calibration value is the last quote in the rule, so the value is never closed |
| Findings.AsWrittenDiffersFromTestExpectation | src/main.rs:93-100 | As written, the rule for the test's matrix differs from the test's expected text: the closing quote is missing |
| Findings.IntendedRuleContent | src/main.rs:94 | The intended rule text is the rule prefix, the matrix string and a closing quote |
| Findings.IntendedValueClosed | src/main.rs:94-98 | The intended rule closes the value. After the opening quote come the matrix and one closing quote, which is the last character, and no other quote |
| Findings.IntendedPassesTest | src/main.rs:93-100 | The intended rule is exactly the test's expected text, and in general it is the as-written rule plus a closing quote |
| Findings.CorrectedMain | src/main.rs:60-78 | The corrected program exits exactly as the program as written does |
| Findings.CorrectedMainWritesClosedRule | src/main.rs:52-60 | The corrected program writes the rule prefix, the chosen matrix string and a closing quote |

## Left out

- Console output. The model keeps the printed texts and their order.
  - Buffering is left out, as is the panic `println!` raises when stdout is closed.
  - The encoding of the labels is left out: labels are plain character strings.
  - How Rust's runtime prints the error `main` returns is left out.
- `fs::write` and `Command::status()`. These are inputs to the model (success, or an error message; an exit code, or a spawn error).
  - File permissions, the previous file contents and `sudo`'s behaviour are outside the program.
  - The blocking wait for the child is also left out.
- `io::Error` values are opaque strings, and their `Display` text is not modelled.
- `usize` is taken to be 64 bits wide. On a 32-bit target the overflow bound would be 2^32 − 1.
- `format!` argument-count errors are compile-time errors in Rust. The model turns them into `None`; the one template `main` uses never hits them.
- The unit test at src/main.rs:82-102 is not modelled as a test. Its template and expected text appear in `Findings`.
- Products of two table matrices are stated for the labelled pairs only: no-rotation with anything, left·right, right·left, left·left, right·right, half·half, left·half. A single lemma over all sixteen pairs is not stated.
- libinput reads `LIBINPUT_CALIBRATION_MATRIX` as six floats, the top two rows, with the bottom row `0 0 1` implied. The model reads the table's nine-token strings as integers instead. How libinput parses the property, and its floating point, are not modelled.
- `RuleFormat.Format` states in its own contract only the brace-free case. How it handles `{{`, `}}` and `{}` is stated by `RuleFormat.FormatEscapes`, `RuleFormat.FormatHole` and `RuleFormat.FormatLiteral`, and the template of src/main.rs:56 as a whole by `RuleFormat.FormatRuleTemplate`. Holes with an index, a name or a format spec (`{0}`, `{x}`, `{:?}`) are not modelled and give `None`; the template of src/main.rs:56 has none.
- `Program.Session` records only that the menu comes first. What a run writes and runs is stated by `Program.SessionActions`, and its exit status by `Program.SessionExit`.

## Findings

| source | as written | input that shows it | evidently intended | confidence | as-written member | corrected member |
|---|---|---|---|---|---|---|
| src/main.rs:56 | The raw template ends `="{}"#`. The `"#` only closes the raw literal, so the rule opens the `LIBINPUT_CALIBRATION_MATRIX` value with a quote and never closes it | Selection `1`. The file becomes `…ENV{LIBINPUT_CALIBRATION_MATRIX}="1 0 0 0 1 0 0 0 1` with no closing quote | The value should be closed by a `"` after the matrix. This is what the unit test's template (src/main.rs:94) and expected text (src/main.rs:98) contain, and it is the form udev rule values take | high; not executed | Findings.AsWrittenValueUnclosed | Findings.IntendedRuleContent |

=== FILE: calibration.dfy ===
/** Calibration matrices: a reading of the rotation table's coefficient
    strings (src/main.rs:14-31) as nine space-separated integers forming a
    3×3 matrix that acts on the normalised touchscreen plane, and the text
    form those strings take. */
module Calibration {
  import opened Options
  import opened Decimal

  /** A 3×3 integer matrix in row-major order: `mRC` is row R, column C. */
  datatype Mat3 = Mat3(
    m00: int, m01: int, m02: int,
    m10: int, m11: int, m12: int,
    m20: int, m21: int, m22: int)

  /** The nine coefficients in row-major order, as the strings list them. */
  function Entries(m: Mat3): (s: seq<int>)
    ensures |s| == 9
  {
    [m.m00, m.m01, m.m02, m.m10, m.m11, m.m12, m.m20, m.m21, m.m22]
  }

  function FromEntries(s: seq<int>): (m: Mat3)
    requires |s| == 9
    ensures Entries(m) == s
  {
    Mat3(s[0], s[1], s[2], s[3], s[4], s[5], s[6], s[7], s[8])
  }

  const Identity := Mat3(1, 0, 0, 0, 1, 0, 0, 0, 1)

  /** Row `(a0, a1, a2)` times column `(b0, b1, b2)`. */
  function Dot(a0: int, a1: int, a2: int, b0: int, b1: int, b2: int): int {
    a0 * b0 + a1 * b1 + a2 * b2
  }

  /** The matrix product `a * b`: applying `b` and then `a`. */
  function Mul(a: Mat3, b: Mat3): Mat3 {
    Mat3(
      Dot(a.m00, a.m01, a.m02, b.m00, b.m10, b.m20),
      Dot(a.m00, a.m01, a.m02, b.m01, b.m11, b.m21),
      Dot(a.m00, a.m01, a.m02, b.m02, b.m12, b.m22),
      Dot(a.m10, a.m11, a.m12, b.m00, b.m10, b.m20),
      Dot(a.m10, a.m11, a.m12, b.m01, b.m11, b.m21),
      Dot(a.m10, a.m11, a.m12, b.m02, b.m12, b.m22),
      Dot(a.m20, a.m21, a.m22, b.m00, b.m10, b.m20),
      Dot(a.m20, a.m21, a.m22, b.m01, b.m11, b.m21),
      Dot(a.m20, a.m21, a.m22, b.m02, b.m12, b.m22))
  }

  /** A calibration matrix is affine: the bottom row is `0 0 1`, so the
      homogeneous coordinate is left alone. */
  predicate IsAffine(m: Mat3) {
    m.m20 == 0 && m.m21 == 0 && m.m22 == 1
  }

  /** A point of the plane in homogeneous integer coordinates: it stands for
      `(x / w, y / w)`. Exact rationals keep the geometry free of floating
      point. */
  datatype Point = Point(x: int, y: int, w: int)

  function Apply(m: Mat3, p: Point): Point {
    Point(
      m.m00 * p.x + m.m01 * p.y + m.m02 * p.w,
      m.m10 * p.x + m.m11 * p.y + m.m12 * p.w,
      m.m20 * p.x + m.m21 * p.y + m.m22 * p.w)
  }

  /** The normalised device area `[0, 1] × [0, 1]`. */
  predicate InUnitSquare(p: Point) {
    p.w > 0 && 0 <= p.x <= p.w && 0 <= p.y <= p.w
  }

  /** The identity is neutral on both sides. */
  lemma MulIdentity(m: Mat3)
    ensures Mul(m, Identity) == m && Mul(Identity, m) == m
  {
  }

  // ---------------------------------------------------------------------
  // Text form: one token per coefficient, tokens separated by one space.

  /** The shortest decimal rendering of an integer, `-` first when negative. */
  function IntToDecimal(x: int): (s: string)
    ensures |s| >= 1 && ' ' !in s
  {
    if x < 0 then "-" + NatToDecimal(-x) else NatToDecimal(x)
  }

  /** The three coefficients the rotation table uses. */
  lemma SmallRenderings()
    ensures IntToDecimal(0) == "0" && IntToDecimal(1) == "1" && IntToDecimal(-1) == "-1"
  {
    assert NatToDecimal(1) == "1";
  }

  /** A coefficient token: an optional `-` and one or more decimal digits. */
  function ParseInt(tok: string): Option<int> {
    if |tok| >= 2 && tok[0] == '-' && AllDigits(tok[1..]) then Some(-(Value(tok[1..]) as int))
    else if |tok| >= 1 && AllDigits(tok) then Some(Value(tok))
    else None
  }

  lemma ParseIntRendered(x: int)
    ensures ParseInt(IntToDecimal(x)) == Some(x)
  {
    if x < 0 {
      var s := IntToDecimal(x);
      assert s[1..] == NatToDecimal(-x);
    } else {
      assert IntToDecimal(x)[0] != '-';
    }
  }

  /** The tokens joined with one space between neighbours. */
  function Join(ts: seq<string>): string
    requires |ts| >= 1
  {
    if |ts| == 1 then ts[0] else ts[0] + " " + Join(ts[1..])
  }

  /** Position of the first space. */
  function FirstSpace(s: string): (k: nat)
    requires ' ' in s
    ensures k < |s| && s[k] == ' ' && ' ' !in s[..k]
  {
    if s[0] == ' ' then 0
    else
      assert ' ' in s[1..] by {
        var i :| 0 <= i < |s| && s[i] == ' ';
        assert s[1..][i - 1] == ' ';
      }
      var k := 1 + FirstSpace(s[1..]);
      assert s[..k] == [s[0]] + s[1..][..k - 1];
      k
  }

  /** The pieces between single spaces. Splitting and joining are inverse:
      the pieces hold no space and joining them restores the text. */
  function Split(s: string): (ts: seq<string>)
    ensures |ts| >= 1
    ensures forall i :: 0 <= i < |ts| ==> ' ' !in ts[i]
    ensures Join(ts) == s
    decreases |s|
  {
    if ' ' !in s then [s]
    else
      var k := FirstSpace(s);
      var rest := Split(s[k + 1..]);
      assert s == s[..k] + " " + s[k + 1..];
      [s[..k]] + rest
  }

  /** Joining space-free tokens and splitting again gives the tokens back. */
  lemma {:induction false} SplitJoin(ts: seq<string>)
    requires |ts| >= 1
    requires forall i :: 0 <= i < |ts| ==> ' ' !in ts[i]
    ensures Split(Join(ts)) == ts
    decreases |ts|
  {
    if |ts| > 1 {
      var s := Join(ts);
      var t0 := ts[0];
      assert s == t0 + " " + Join(ts[1..]);
      assert s[|t0|] == ' ';
      assert s[..|t0|] == t0;
      assert FirstSpace(s) == |t0|;
      assert s[|t0| + 1..] == Join(ts[1..]);
      SplitJoin(ts[1..]);
    }
  }

  /** A rendered matrix splits back into its nine coefficient tokens. */
  lemma SplitRender(m: Mat3)
    ensures Split(RenderMatrix(m)) == Tokens(m)
  {
    SplitJoin(Tokens(m));
  }

  /** Every token read as a coefficient, or `None` if any is malformed. */
  function ParseAll(ts: seq<string>): (r: Option<seq<int>>)
    ensures r.Some? <==> forall i :: 0 <= i < |ts| ==> ParseInt(ts[i]).Some?
    ensures r.Some? ==>
      && |r.value| == |ts|
      && forall i :: 0 <= i < |ts| ==> ParseInt(ts[i]) == Some(r.value[i])
    decreases |ts|
  {
    if |ts| == 0 then Some([])
    else match (ParseInt(ts[0]), ParseAll(ts[1..]))
      case (Some(x), Some(xs)) =>
        assert forall i :: 1 <= i < |ts| ==> ts[i] == ts[1..][i - 1];
        Some([x] + xs)
      case (None, _) => None
      case (_, None) =>
        var j :| 0 <= j < |ts| - 1 && ParseInt(ts[1..][j]).None?;
        assert ts[j + 1] == ts[1..][j];
        None
  }

  /** The nine coefficient tokens, in row-major order. */
  function Tokens(m: Mat3): (ts: seq<string>)
    ensures |ts| == 9
  {
    seq(9, i requires 0 <= i < 9 => IntToDecimal(Entries(m)[i]))
  }

  /** The text form of a matrix. */
  function RenderMatrix(m: Mat3): string {
    Join(Tokens(m))
  }

  /** Joining from position `k` on: token `k`, a space, and the rest. */
  lemma JoinFrom(ts: seq<string>, k: nat)
    requires k + 1 < |ts|
    ensures Join(ts[k..]) == ts[k] + " " + Join(ts[k + 1..])
  {
    assert ts[k..][1..] == ts[k + 1..];
  }

  /** The text form spelled out: the nine renderings, one space apart. */
  lemma RenderMatrixTokens(m: Mat3)
    ensures var ts := Tokens(m);
      RenderMatrix(m) ==
        ts[0] + " " + (ts[1] + " " + (ts[2] + " " + (ts[3] + " " + (ts[4] + " " +
        (ts[5] + " " + (ts[6] + " " + (ts[7] + " " + ts[8])))))))
  {
    var ts := Tokens(m);
    assert Join(ts[8..]) == ts[8];
    JoinFrom(ts, 7);
    JoinFrom(ts, 6);
    JoinFrom(ts, 5);
    JoinFrom(ts, 4);
    JoinFrom(ts, 3);
    JoinFrom(ts, 2);
    JoinFrom(ts, 1);
    JoinFrom(ts, 0);
    assert ts[0..] == ts;
  }

  /** Reads a coefficient string: exactly nine tokens, each an integer. */
  function ParseMatrix(s: string): Option<Mat3> {
    var ts := Split(s);
    if |ts| != 9 then None
    else match ParseAll(ts)
      case Some(xs) => Some(FromEntries(xs))
      case None => None
  }

  /** The text form of every integer matrix reads back as that matrix. */
  lemma ParseRenderMatrix(m: Mat3)
    ensures ParseMatrix(RenderMatrix(m)) == Some(m)
  {
    var ts, es := Tokens(m), Entries(m);
    SplitRender(m);
    forall i | 0 <= i < 9 ensures ParseInt(ts[i]) == Some(es[i]) {
      ParseIntRendered(es[i]);
    }
    var r := ParseAll(ts);
    assert r.Some?;
    var xs := r.value;
    assert forall i :: 0 <= i < 9 ==> xs[i] == es[i];
    assert xs == es;
    assert ParseMatrix(RenderMatrix(m)) == Some(FromEntries(es));
  }
}

=== FILE: decimal.dfy ===
/** Decimal digit strings: their value, the canonical rendering of a natural
    number, and Rust's `str::parse::<usize>` (core's `from_str_radix` with
    radix 10 on an unsigned type), which `main` applies to the trimmed input
    line (src/main.rs:46). */
module Decimal {
  import opened Options

  predicate IsDigit(c: char) {
    '0' <= c <= '9'
  }

  predicate AllDigits(s: string) {
    forall i :: 0 <= i < |s| ==> IsDigit(s[i])
  }

  function DigitValue(c: char): (d: nat)
    requires IsDigit(c)
    ensures d < 10
  {
    c as int - '0' as int
  }

  function DigitChar(d: nat): (c: char)
    requires d < 10
    ensures IsDigit(c) && DigitValue(c) == d
  {
    ('0' as int + d) as char
  }

  function Pow10(k: nat): (p: nat)
    ensures p >= 1
  {
    if k == 0 then 1 else 10 * Pow10(k - 1)
  }

  /** The number a digit string denotes, most significant digit first. */
  function Value(s: string): nat
    requires AllDigits(s)
    decreases |s|
  {
    if |s| == 0 then 0 else 10 * Value(s[..|s| - 1]) + DigitValue(s[|s| - 1])
  }

  /** The largest `usize` on the 64-bit targets the tool is built for. */
  const UsizeMax: nat := 0xFFFF_FFFF_FFFF_FFFF

  /** The shortest decimal rendering of `n`, as `{}` prints a number. */
  function NatToDecimal(n: nat): (s: string)
    ensures |s| >= 1 && AllDigits(s)
    ensures Value(s) == n
    ensures s[0] == '0' ==> s == "0"
    decreases n
  {
    if n < 10 then [DigitChar(n)] else NatToDecimal(n / 10) + [DigitChar(n % 10)]
  }

  /** The digits `from_str_radix` reads: everything after one optional `+`. */
  function UnsignedDigits(s: string): string {
    if |s| > 0 && s[0] == '+' then s[1..] else s
  }

  /** Reference grammar of an unsigned decimal literal: an optional `+` and
      then one or more ASCII digits. */
  predicate IsUnsignedLiteral(s: string) {
    |UnsignedDigits(s)| >= 1 && AllDigits(UnsignedDigits(s))
  }

  /** Rust's digit loop: each step multiplies the accumulator by ten and adds
      the digit with checked arithmetic, failing on a non-digit or on the
      first step that leaves the `usize` range. */
  function Accumulate(acc: nat, s: string): (r: Option<nat>)
    requires acc <= UsizeMax
    ensures r.Some? ==> AllDigits(s) && acc <= r.value <= UsizeMax
    decreases |s|
  {
    if |s| == 0 then Some(acc)
    else if !IsDigit(s[0]) then None
    else
      var next := 10 * acc + DigitValue(s[0]);
      if next > UsizeMax then None else Accumulate(next, s[1..])
  }

  /** `s.parse::<usize>()`, with every error kind (empty, invalid digit,
      overflow) collapsed to `None`. A lone sign is an invalid digit; a
      leading `-` is not a sign for an unsigned type, so it is an invalid
      digit as well. */
  function ParseUsize(s: string): (r: Option<nat>)
    ensures r ==
      if IsUnsignedLiteral(s) && Value(UnsignedDigits(s)) <= UsizeMax
      then Some(Value(UnsignedDigits(s))) else None
  {
    AccumulateValue(0, UnsignedDigits(s));
    if |s| == 0 then None
    else if (s[0] == '+' || s[0] == '-') && |s| == 1 then None
    else Accumulate(0, UnsignedDigits(s))
  }

  lemma AllDigitsConcat(a: string, b: string)
    requires AllDigits(a) && AllDigits(b)
    ensures AllDigits(a + b)
  {
    var ab := a + b;
    forall i | 0 <= i < |ab| ensures IsDigit(ab[i]) {
      if i < |a| { assert ab[i] == a[i]; } else { assert ab[i] == b[i - |a|]; }
    }
  }

  /** Appending a digit to `b` in `v * 10^k + w` form. */
  lemma ShiftDigit(v: nat, p: nat, w: nat, d: nat)
    ensures 10 * (v * p + w) + d == v * (10 * p) + (10 * w + d)
  {
  }

  /** The value of a concatenation: the left part shifted past the right. */
  lemma {:induction false} ValueAppend(a: string, b: string)
    requires AllDigits(a) && AllDigits(b)
    ensures AllDigits(a + b)
    ensures Value(a + b) == Value(a) * Pow10(|b|) + Value(b)
    decreases |b|
  {
    AllDigitsConcat(a, b);
    var ab := a + b;
    if |b| == 0 {
      assert ab == a;
    } else {
      var b' := b[..|b| - 1];
      assert ab[..|ab| - 1] == a + b';
      assert ab[|ab| - 1] == b[|b| - 1];
      ValueAppend(a, b');
      var d := DigitValue(b[|b| - 1]);
      assert Value(ab) == 10 * Value(a + b') + d;
      assert Value(b) == 10 * Value(b') + d;
      ShiftDigit(Value(a), Pow10(|b'|), Value(b'), d);
    }
  }

  /** Splitting off the leading digit: its weight is ten to the number of
      digits after it. */
  lemma ValueCons(c: char, t: string)
    requires IsDigit(c) && AllDigits(t)
    ensures AllDigits([c] + t)
    ensures Value([c] + t) == DigitValue(c) * Pow10(|t|) + Value(t)
  {
    assert Value([c]) == DigitValue(c) by { assert [c][..0] == []; }
    ValueAppend([c], t);
  }

  /** Leading zeros do not change a value. */
  lemma {:induction false} ZerosValue(z: string)
    requires forall i :: 0 <= i < |z| ==> z[i] == '0'
    ensures AllDigits(z) && Value(z) == 0
    decreases |z|
  {
    if |z| > 0 {
      ZerosValue(z[..|z| - 1]);
    }
  }

  /** The number the digit loop arrives at when it starts from `acc` and
      reads the digits `s`. */
  function Shifted(acc: nat, s: string): nat
    requires AllDigits(s)
  {
    acc * Pow10(|s|) + Value(s)
  }

  /** Moving the leading digit of `s` into the accumulator does not change
      where the loop arrives. */
  lemma ShiftedCons(acc: nat, s: string)
    requires |s| > 0 && AllDigits(s)
    ensures AllDigits(s[1..])
    ensures Shifted(acc, s) == Shifted(10 * acc + DigitValue(s[0]), s[1..])
    ensures Shifted(acc, s) >= 10 * acc + DigitValue(s[0])
  {
    var t := s[1..];
    assert s == [s[0]] + t;
    assert AllDigits(t) by {
      forall i | 0 <= i < |t| ensures IsDigit(t[i]) { assert t[i] == s[i + 1]; }
    }
    ValueCons(s[0], t);
    var d, p, v := DigitValue(s[0]), Pow10(|t|), Value(t);
    assert Value(s) == d * p + v;
    assert Pow10(|s|) == 10 * p;
    Regroup(acc, d, p, v);
  }

  /** The arithmetic step of `ShiftedCons`. */
  lemma Regroup(acc: nat, d: nat, p: nat, v: nat)
    requires p >= 1
    ensures acc * (10 * p) + (d * p + v) == (10 * acc + d) * p + v
    ensures (10 * acc + d) * p + v >= 10 * acc + d
  {
    assert acc * (10 * p) == (10 * acc) * p;
    assert (10 * acc + d) * p == (10 * acc) * p + d * p;
  }

  /** The digit loop computes the value of the remaining digits on top of the
      accumulator, and fails exactly when a non-digit occurs or that value
      leaves the `usize` range. */
  lemma {:induction false} AccumulateValue(acc: nat, s: string)
    requires acc <= UsizeMax
    ensures Accumulate(acc, s) ==
      if AllDigits(s) && Shifted(acc, s) <= UsizeMax then Some(Shifted(acc, s)) else None
    decreases |s|
  {
    if |s| > 0 && IsDigit(s[0]) {
      var t := s[1..];
      var next := 10 * acc + DigitValue(s[0]);
      if AllDigits(s) {
        ShiftedCons(acc, s);
        if next <= UsizeMax {
          AccumulateValue(next, t);
        }
      } else {
        assert !AllDigits(t) by {
          var i :| 0 <= i < |s| && !IsDigit(s[i]);
          assert t[i - 1] == s[i];
        }
        if next <= UsizeMax {
          AccumulateValue(next, t);
        }
      }
    }
  }

  /** Every rendering `NatToDecimal` produces parses back to its number, and a
      number past the `usize` range is an overflow. */
  lemma ParseRendered(n: nat)
    ensures ParseUsize(NatToDecimal(n)) == if n <= UsizeMax then Some(n) else None
  {
  }

  /** A `+` sign and any run of leading zeros are accepted and ignored. */
  lemma ParseSignedPadded(plus: string, zeros: string, n: nat)
    requires plus == "" || plus == "+"
    requires forall i :: 0 <= i < |zeros| ==> zeros[i] == '0'
    ensures ParseUsize(plus + zeros + NatToDecimal(n)) == if n <= UsizeMax then Some(n) else None
  {
    var d := NatToDecimal(n);
    var u := zeros + d;
    PaddedValue(zeros, d);
    StripPlus(plus, u);
    assert plus + zeros + d == plus + u;
  }

  /** Leading zeros before a number's digits keep its value. */
  lemma PaddedValue(zeros: string, d: string)
    requires forall i :: 0 <= i < |zeros| ==> zeros[i] == '0'
    requires |d| >= 1 && AllDigits(d)
    ensures AllDigits(zeros + d) && |zeros + d| >= 1
    ensures Value(zeros + d) == Value(d)
  {
    ZerosValue(zeros);
    ValueAppend(zeros, d);
    assert Value(zeros) * Pow10(|d|) == 0;
  }

  /** One optional `+` in front of digits is what `UnsignedDigits` drops. */
  lemma StripPlus(plus: string, u: string)
    requires plus == "" || plus == "+"
    requires |u| >= 1 && AllDigits(u)
    ensures UnsignedDigits(plus + u) == u
  {
    assert IsDigit(u[0]);
    if plus == "+" {
      assert (plus + u)[1..] == u;
    } else {
      assert plus + u == u;
    }
  }
}

=== FILE: findings.dfy ===
/** The production template (src/main.rs:56) and the unit test's template
    and expectation (src/main.rs:94, 98) differ by the quote that closes the
    `LIBINPUT_CALIBRATION_MATRIX` value: the program writes the value's
    opening quote and never the closing one, the test expects both. udev's
    rule syntax wants every value enclosed in double quotes, so the test's
    form is the intended one. This module exhibits the difference and
    defines the intended rule with its properties. */
module Findings {
  import opened Options
  import opened RuleFormat
  import opened RotationTable
  import opened Program

  predicate EndsWithQuote(s: string) {
    |s| >= 1 && s[|s| - 1] == '"'
  }

  lemma EndsWithQuoteConcat(a: string, b: string)
    requires EndsWithQuote(b)
    ensures EndsWithQuote(a + b)
  {
    assert (a + b)[|a + b| - 1] == b[|b| - 1];
  }

  /** The rule prefix ends with the quote that opens the assigned value. */
  lemma PrefixOpensValue()
    ensures EndsWithQuote(RulePrefix)
  {
    var t := "}" + AssignOpen;
    assert EndsWithQuote(AssignOpen);
    EndsWithQuoteConcat("}", AssignOpen);
    EndsWithQuoteConcat(CalibrationKey, t);
    t := CalibrationKey + t;
    EndsWithQuoteConcat("{", t);
    t := "{" + t;
    EndsWithQuoteConcat("ENV", t);
    t := "ENV" + t;
    EndsWithQuoteConcat(IsTouchscreen, t);
    t := IsTouchscreen + t;
    EndsWithQuoteConcat("}", t);
    t := "}" + t;
    EndsWithQuoteConcat(TouchscreenKey, t);
    t := TouchscreenKey + t;
    EndsWithQuoteConcat("{", t);
    t := "{" + t;
    EndsWithQuoteConcat("ENV", t);
    t := "ENV" + t;
    EndsWithQuoteConcat(KernelMatch, t);
    t := KernelMatch + t;
    EndsWithQuoteConcat(ActionMatch, t);
    t := ActionMatch + t;
    assert t == RulePrefix;
  }

  /** As written: the quote that opens the calibration value is the last
      quote in the rule when the matrix string holds none (no table entry
      does), so the value is never closed. */
  lemma AsWrittenValueUnclosed(m: string)
    requires '"' !in m
    ensures var r := RuleContent(m);
      && |RulePrefix| <= |r|
      && r[|RulePrefix| - 1] == '"'
      && '"' !in r[|RulePrefix|..]
  {
    PrefixOpensValue();
    var r := RuleContent(m);
    assert r[|RulePrefix|..] == m;
    assert r[|RulePrefix| - 1] == RulePrefix[|RulePrefix| - 1];
  }

  /** The unit test's template (src/main.rs:94): the production template
      followed by a closing quote. */
  const TestTemplate: string := TemplateClosedBy("\"")

  /** The unit test's expected text (src/main.rs:98) for the matrix of the
      first table entry. */
  const TestMatrix: string := "1 0 0 0 1 0 0 0 1"
  const TestExpected: string := RulePrefix + (TestMatrix + "\"")

  /** As written, the program's rule for the test's matrix is not the text
      the test expects: it lacks the last character. (The test itself formats
      its own template and never reaches the production one.) */
  lemma AsWrittenDiffersFromTestExpectation()
    ensures RuleContent(TestMatrix) != TestExpected
    ensures RuleContent(TestMatrix) + "\"" == TestExpected
  {
    assert |RuleContent(TestMatrix)| != |TestExpected|;
  }

  /** The intended rule: the value the prefix opens is closed after the
      matrix. */
  function IntendedRuleContent(matrix: string): (r: string)
    ensures r == RulePrefix + (matrix + "\"")
  {
    FormatTemplate("\"", matrix);
    Format(TestTemplate, [matrix]).UnwrapOr("")
  }

  /** The intended rule closes the value: after the opening quote come
      the matrix and one closing quote, the rule's last character, and
      dropping that quote gives the matrix back. */
  lemma IntendedValueClosed(m: string)
    requires '"' !in m
    ensures var r := IntendedRuleContent(m);
      && |RulePrefix| + 1 <= |r|
      && r[|RulePrefix| - 1] == '"'
      && r[|RulePrefix|..|r| - 1] == m && '"' !in r[|RulePrefix|..|r| - 1]
      && r[|r| - 1] == '"'
      && MatrixOfRule(r[..|r| - 1]) == Some(m)
  {
    PrefixOpensValue();
    var r := IntendedRuleContent(m);
    assert r[|RulePrefix| - 1] == RulePrefix[|RulePrefix| - 1];
    assert r[|RulePrefix|..|r| - 1] == m;
    assert r[..|r| - 1] == RuleContent(m);
    MatrixOfRuleContent(m);
  }

  /** The intended rule is exactly what the unit test expects, and it is
      the as-written rule with the closing quote added. */
  lemma IntendedPassesTest(m: string)
    ensures IntendedRuleContent(TestMatrix) == TestExpected
    ensures IntendedRuleContent(m) == RuleContent(m) + "\""
  {
  }

  /** `main` with the intended rule text. */
  function CorrectedMain(w: World): (o: Outcome)
    ensures o.exit == Main(w).exit
  {
    SessionExit(w, IntendedRuleContent);
    SessionExit(w, RuleContent);
    Session(w, IntendedRuleContent)
  }

  /** The corrected program writes the closed rule for the chosen entry. */
  lemma CorrectedMainWritesClosedRule(w: World, i: nat)
    requires i < |Rotations|
    requires w.flush.Done? && w.input.Line?
    requires Select(w.input.text, |Rotations|) == Chosen(i)
    ensures var acts := SystemActions(CorrectedMain(w).effects);
      |acts| >= 1 && acts[0] == WriteFile(RulePath, RulePrefix + (Rotations[i].matrix + "\""))
  {
    SessionWritesSelectedRule(w, IntendedRuleContent, i);
    var m := Rotations[i].matrix;
    assert IntendedRuleContent(m) == RulePrefix + (m + "\"");
  }
}

=== FILE: options.dfy ===
/** The optional value used wherever the program turns a failure into "no value":
    `str::parse` failing, or a template that `format!` would reject. */
module Options {

  datatype Option<+T> = None | Some(value: T) {

    /** The value, or `default` when there is none (Rust's `unwrap_or`). */
    function UnwrapOr(default: T): (r: T)
      ensures Some? ==> r == value
      ensures None? ==> r == default
    {
      match this
      case Some(v) => v
      case None => default
    }
  }
}

=== FILE: program.dfy ===
/** `main` (src/main.rs:13-79) as a function from what the outside world
    answers to what the program does. Console output, the rule file and the
    `sudo udevadm control --reload-rules` child process are effects in the
    order `main` performs them; the results of flushing, reading a line,
    writing the file and spawning the child are inputs. */
module Program {
  import opened Options
  import opened Decimal
  import opened Whitespace
  import opened RotationTable
  import opened RuleFormat

  // ---------------------------------------------------------------------
  // Reading the selection (src/main.rs:46-52)

  /** What the typed line selects: a position in the table, or nothing. */
  datatype Selection = Invalid | Chosen(index: nat)

  /** `input.trim().parse::<usize>().unwrap_or(0)`, then the range check
      `1 <= n <= count` and the conversion to a zero-based position. A
      parse failure becomes 0 and so lands in the rejected range. Read
      against the grammar: after trimming, an optional `+` and one or more
      ASCII digits whose value is between 1 and `count`. */
  function Select(line: string, count: nat): (s: Selection)
    ensures s.Chosen? ==> s.index < count
    ensures count <= UsizeMax ==> var t := Trim(line);
      s == if IsUnsignedLiteral(t) && 1 <= Value(UnsignedDigits(t)) <= count
           then Chosen(Value(UnsignedDigits(t)) - 1) else Invalid
  {
    var n := ParseUsize(Trim(line)).UnwrapOr(0);
    if n < 1 || n > count then Invalid else Chosen(n - 1)
  }

  /** Typing the number a menu line shows, with any surrounding whitespace
      (the newline `read_line` keeps included), a `+` sign or leading zeros,
      selects that line's entry. */
  lemma MenuNumberSelects(i: nat, count: nat, l: string, plus: string, zeros: string, r: string)
    requires i < count <= UsizeMax
    requires AllWhitespace(l) && AllWhitespace(r)
    requires plus == "" || plus == "+"
    requires forall k :: 0 <= k < |zeros| ==> zeros[k] == '0'
    ensures Select(l + (plus + zeros + NatToDecimal(i + 1)) + r, count) == Chosen(i)
  {
    var core := plus + zeros + NatToDecimal(i + 1);
    NumberTrimmed(plus, zeros, NatToDecimal(i + 1));
    TrimPadded(l, core, r);
    ParseSignedPadded(plus, zeros, i + 1);
    assert ParseUsize(core) == Some(i + 1);
  }

  /** A sign, zeros and digits have no whitespace at either end. */
  lemma NumberTrimmed(plus: string, zeros: string, digits: string)
    requires plus == "" || plus == "+"
    requires forall k :: 0 <= k < |zeros| ==> zeros[k] == '0'
    requires |digits| >= 1 && AllDigits(digits)
    ensures Trimmed(plus + zeros + digits)
  {
    var core := plus + zeros + digits;
    assert core[|core| - 1] == digits[|digits| - 1];
    assert IsDigit(digits[|digits| - 1]);
    if |plus| == 0 && |zeros| == 0 {
      assert core[0] == digits[0];
      assert IsDigit(digits[0]);
    } else if |plus| == 0 {
      assert core[0] == zeros[0];
    } else {
      assert core[0] == '+';
    }
  }

  /** The plain answer: the menu number and the newline. */
  lemma MenuNumberLine(i: nat)
    requires i < |Rotations|
    ensures Select(NatToDecimal(i + 1) + "\n", |Rotations|) == Chosen(i)
  {
    MenuNumberSelects(i, |Rotations|, "", "", "", "\n");
    assert "" + ("" + "" + NatToDecimal(i + 1)) + "\n" == NatToDecimal(i + 1) + "\n";
  }

  /** An empty line, with or without its newline, selects nothing. */
  lemma RejectsEmpty()
    ensures Select("", |Rotations|) == Invalid
    ensures Select("\n", |Rotations|) == Invalid
  {
    TrimOf("");
    TrimPadded([], [], "\n");
    assert [] + [] + "\n" == "\n";
  }

  /** Letters, a negative number and a lone sign select nothing. */
  lemma RejectsNonNumbers()
    ensures Select("abc", |Rotations|) == Invalid
    ensures Select("-1", |Rotations|) == Invalid
    ensures Select("+", |Rotations|) == Invalid
  {
    RejectsBadFirst("abc");
    RejectsBadFirst("-1");
    RejectsBadFirst("+");
  }

  /** A line whose first character is neither whitespace nor a digit
      selects nothing, unless it is a `+` with a number after it: whatever
      follows, including the newline `read_line` keeps, does not help. */
  lemma RejectsBadFirst(s: string)
    requires |s| >= 1 && !IsWhitespace(s[0]) && !IsDigit(s[0])
    requires s[0] == '+' ==> Trim(s) == "+"
    ensures Select(s, |Rotations|) == Invalid
  {
    var t := Trim(s);
    assert t[0] == s[0];
    if s[0] != '+' {
      assert UnsignedDigits(t) == t;
    }
    assert ParseUsize(t) == None;
  }

  /** Zero and the first number past the table select nothing. */
  lemma RejectsOutOfRange()
    ensures Select("0", |Rotations|) == Invalid
    ensures Select("5", |Rotations|) == Invalid
  {
    TrimOf("0");
    TrimOf("5");
    assert Value("0") == 0;
    assert Value("5") == 5;
  }

  /** A number past the `usize` range is a parse error, so it selects
      nothing either. */
  lemma RejectsOverflow(n: nat)
    requires n > UsizeMax
    ensures Select(NatToDecimal(n), |Rotations|) == Invalid
  {
    ParseRendered(n);
    var s := NatToDecimal(n);
    assert !IsWhitespace(s[0]) by { assert IsDigit(s[0]); }
    assert !IsWhitespace(s[|s| - 1]) by { assert IsDigit(s[|s| - 1]); }
    TrimOf(s);
  }

  /** Text with no whitespace at either end is its own trim. */
  lemma TrimOf(s: string)
    requires Trimmed(s)
    ensures Trim(s) == s
  {
    TrimPadded([], s, []);
    assert [] + s + [] == s;
  }

  // ---------------------------------------------------------------------
  // What the outside world answers, and what main does

  /** Result of an I/O call whose error `?` or a `match` reports. */
  datatype IoResult = Done | Failed(error: string)

  /** Result of `Command::status()`: the child ran to completion (whatever
      its exit status, or a signal that ended it), or it could not be
      started. */
  datatype SpawnResult = Exited | SpawnFailed(error: string)

  /** The answers `main` gets, in the order it asks: flushing stdout,
      reading a line (the line, or the error), writing the rule file, and
      running the reload command. */
  datatype World = World(flush: IoResult, input: Result, write: IoResult, reload: SpawnResult)

  datatype Result = Line(text: string) | ReadFailed(error: string)

  /** What `main` does that others can observe. `WriteFile` and `Run` record
      an attempt: they appear whether or not the write succeeds or the child
      can be started, and the outcome is the world's answer. */
  datatype Effect =
    | Print(text: string)
    | WriteFile(path: string, content: string)
    | Run(program: string, args: seq<string>)

  /** `main`'s return value: `Ok(())` or the error `?` propagated. */
  datatype Exit = Success | Failure(error: string)

  datatype Outcome = Outcome(effects: seq<Effect>, exit: Exit)

  const Title: string := "触摸屏旋转设置工具\n"
  const Heading: string := "请选择旋转方向：\n"
  const InvalidChoice: string := "无效的选择！\n"
  const ReloadProgram: string := "sudo"
  const ReloadArgs: seq<string> := ["udevadm", "control", "--reload-rules"]

  /** Menu line `i`: its one-based number and the entry's label. */
  function MenuLine(i: nat): (e: Effect)
    requires i < |Rotations|
  {
    Print(NatToDecimal(i + 1) + ". " + Rotations[i].name + "\n")
  }

  /** The prompt, with the table size as the upper bound and no newline. */
  function Prompt(): string {
    "请输入选项 (1-" + NatToDecimal(|Rotations|) + "): "
  }

  /** Everything printed before the line is read (src/main.rs:33-40). */
  function Menu(): (es: seq<Effect>)
    ensures |es| == |Rotations| + 3
    ensures es[0] == Print(Title) && es[1] == Print(Heading)
    ensures forall i :: 0 <= i < |Rotations| ==> es[i + 2] == MenuLine(i)
    ensures es[|es| - 1] == Print(Prompt())
  {
    [Print(Title), Print(Heading)]
    + seq(|Rotations|, i requires 0 <= i < |Rotations| => MenuLine(i))
    + [Print(Prompt())]
  }

  /** The reload step (src/main.rs:65-73): the child's exit code is not
      looked at; only a failure to start it is reported. */
  function Reload(result: SpawnResult): (es: seq<Effect>)
    ensures |es| == 2 && es[0] == Run(ReloadProgram, ReloadArgs) && es[1].Print?
    ensures es[1] == Print("udev 规则已重新加载\n") <==> result.Exited?
  {
    [Run(ReloadProgram, ReloadArgs)] +
    match result
    case Exited => [Print("udev 规则已重新加载\n")]
    case SpawnFailed(e) =>
      var t := "重新加载 udev 规则失败: " + e + "\n";
      assert t[0] != "udev 规则已重新加载\n"[0];
      [Print(t)]
  }

  /** Writing the rule and, only once it is written, reloading
      (src/main.rs:60-76). */
  function Install(content: string, w: World): (es: seq<Effect>)
    ensures |es| >= 2 && es[0] == WriteFile(RulePath, content)
    ensures Run(ReloadProgram, ReloadArgs) in es <==> w.write.Done?
  {
    [WriteFile(RulePath, content)] +
    match w.write
    case Done => [Print("规则文件已成功写入到 " + RulePath + "\n")] + Reload(w.reload)
    case Failed(e) => [Print("写入规则文件失败: " + e + "\n")]
  }

  /** `main` with `render` building the rule text from the selected matrix
      string. Flush and read errors end the run with that error; every
      other path returns `Ok(())`. */
  function Session(w: World, render: string -> string): (o: Outcome)
    ensures |o.effects| >= |Rotations| + 3 && o.effects[..|Rotations| + 3] == Menu()
  {
    var menu := Menu();
    match (w.flush, w.input)
    case (Failed(e), _) => Outcome(menu, Failure(e))
    case (Done, ReadFailed(e)) => Outcome(menu, Failure(e))
    case (Done, Line(text)) =>
      var tail :=
        match Select(text, |Rotations|)
        case Invalid => [Print(InvalidChoice)]
        case Chosen(i) => Install(render(Rotations[i].matrix), w);
      assert (menu + tail)[..|menu|] == menu;
      Outcome(menu + tail, Success)
  }

  /** `main` as written: the rule text of src/main.rs:55-58. */
  function Main(w: World): (o: Outcome)
    ensures |o.effects| >= |Rotations| + 3 && o.effects[..|Rotations| + 3] == Menu()
    ensures o.exit ==
      if w.flush.Failed? then Failure(w.flush.error)
      else if w.input.ReadFailed? then Failure(w.input.error)
      else Success
    ensures SystemActions(o.effects) ==
      if w.flush.Done? && w.input.Line? && Select(w.input.text, |Rotations|).Chosen?
      then
        [WriteFile(RulePath, RulePrefix + Rotations[Select(w.input.text, |Rotations|).index].matrix)]
        + (if w.write.Done? then [Run(ReloadProgram, ReloadArgs)] else [])
      else []
  {
    SessionExit(w, RuleContent);
    SessionActions(w, RuleContent);
    Session(w, RuleContent)
  }

  // ---------------------------------------------------------------------
  // Properties of a run

  /** The effects that change the system: files written and commands run. */
  function SystemActions(es: seq<Effect>): (acts: seq<Effect>)
    ensures |acts| <= |es|
    ensures forall k :: 0 <= k < |acts| ==> !acts[k].Print?
  {
    if |es| == 0 then []
    else (if es[0].Print? then [] else [es[0]]) + SystemActions(es[1..])
  }

  lemma {:induction false} SystemActionsAppend(a: seq<Effect>, b: seq<Effect>)
    ensures SystemActions(a + b) == SystemActions(a) + SystemActions(b)
    decreases |a|
  {
    if |a| == 0 {
      assert a + b == b;
    } else {
      assert (a + b)[1..] == a[1..] + b;
      SystemActionsAppend(a[1..], b);
    }
  }

  lemma {:induction false} PrintsOnly(es: seq<Effect>)
    requires forall k :: 0 <= k < |es| ==> es[k].Print?
    ensures SystemActions(es) == []
    decreases |es|
  {
    if |es| > 0 {
      PrintsOnly(es[1..]);
    }
  }

  /** Printing the menu changes nothing. */
  lemma MenuActsOnNothing()
    ensures SystemActions(Menu()) == []
  {
    var m := Menu();
    forall k | 0 <= k < |m| ensures m[k].Print? {
      if 2 <= k < |Rotations| + 2 {
        assert m[(k - 2) + 2] == MenuLine(k - 2);
      }
    }
    PrintsOnly(m);
  }

  /** What a run does to the system: nothing unless the line selects an
      entry; then it writes that entry's rule to the rule path, and runs
      the reload command exactly when the write succeeded. */
  lemma SessionActions(w: World, render: string -> string)
    ensures SystemActions(Session(w, render).effects) ==
      if w.flush.Done? && w.input.Line? && Select(w.input.text, |Rotations|).Chosen?
      then
        [WriteFile(RulePath, render(Rotations[Select(w.input.text, |Rotations|).index].matrix))]
        + (if w.write.Done? then [Run(ReloadProgram, ReloadArgs)] else [])
      else []
  {
    MenuActsOnNothing();
    var menu := Menu();
    if w.flush.Done? && w.input.Line? {
      var o := Session(w, render);
      var tail := o.effects[|menu|..];
      assert o.effects == menu + tail;
      SystemActionsAppend(menu, tail);
      match Select(w.input.text, |Rotations|)
      case Invalid =>
        PrintsOnly(tail);
      case Chosen(i) =>
        var content := render(Rotations[i].matrix);
        assert tail == Install(content, w);
        SystemActionsAppend([WriteFile(RulePath, content)], tail[1..]);
        assert tail == [WriteFile(RulePath, content)] + tail[1..];
        if w.write.Done? {
          var rest := tail[1..];
          assert rest == [rest[0]] + Reload(w.reload);
          SystemActionsAppend([rest[0]], Reload(w.reload));
          var re := Reload(w.reload);
          assert re == [re[0]] + re[1..];
          SystemActionsAppend([re[0]], re[1..]);
          PrintsOnly(re[1..]);
        } else {
          PrintsOnly(tail[1..]);
        }
    }
  }

  /** `main` fails exactly when flushing or reading fails, and with that
      error; an unknown selection and a failed write or reload still end
      in `Ok(())`. */
  lemma SessionExit(w: World, render: string -> string)
    ensures Session(w, render).exit ==
      if w.flush.Failed? then Failure(w.flush.error)
      else if w.input.ReadFailed? then Failure(w.input.error)
      else Success
  {
  }

  /** How the reload command ended has no bearing on what is written or on
      the exit status; in particular its exit code is ignored. */
  lemma ReloadResultIrrelevant(w: World, render: string -> string, other: SpawnResult)
    ensures SystemActions(Session(w.(reload := other), render).effects) ==
            SystemActions(Session(w, render).effects)
    ensures Session(w.(reload := other), render).exit == Session(w, render).exit
    ensures other.Exited? && w.reload.Exited? ==>
            Session(w.(reload := other), render) == Session(w, render)
  {
    SessionActions(w, render);
    SessionActions(w.(reload := other), render);
  }

  /** An invalid selection prints the complaint after the menu and nothing
      else happens. */
  lemma InvalidSelection(w: World, render: string -> string)
    requires w.flush.Done? && w.input.Line?
    requires Select(w.input.text, |Rotations|).Invalid?
    ensures Session(w, render) == Outcome(Menu() + [Print(InvalidChoice)], Success)
  {
  }

  /** Choosing entry `i` writes the rule `render` makes from its matrix. */
  lemma SessionWritesSelectedRule(w: World, render: string -> string, i: nat)
    requires i < |Rotations|
    requires w.flush.Done? && w.input.Line?
    requires Select(w.input.text, |Rotations|) == Chosen(i)
    ensures var acts := SystemActions(Session(w, render).effects);
      |acts| >= 1 && acts[0] == WriteFile(RulePath, render(Rotations[i].matrix))
  {
    SessionActions(w, render);
  }

  /** With the rule text of src/main.rs:55-58, choosing entry `i` writes
      exactly the rule prefix followed by that entry's matrix string. */
  lemma MainWritesSelectedRule(w: World, i: nat)
    requires i < |Rotations|
    requires w.flush.Done? && w.input.Line?
    requires Select(w.input.text, |Rotations|) == Chosen(i)
    ensures var acts := SystemActions(Main(w).effects);
      |acts| >= 1 && acts[0] == WriteFile(RulePath, RulePrefix + Rotations[i].matrix)
  {
    SessionWritesSelectedRule(w, RuleContent, i);
    var m := Rotations[i].matrix;
    assert RuleContent(m) == RulePrefix + m;
  }
}

=== FILE: rotations.dfy ===
/** The constant rotation table `main` builds (src/main.rs:5-9, 14-31): four
    records, each a menu label and the calibration matrix written into the
    udev rule, in menu order. */
module RotationTable {
  import opened Options
  import opened Calibration

  /** `struct RotationMatrix`: a display label and a coefficient string. */
  datatype RotationMatrix = RotationMatrix(name: string, matrix: string)

  const Rotations: seq<RotationMatrix> := [
    RotationMatrix("默认方向 (无旋转)", "1 0 0 0 1 0 0 0 1"),
    RotationMatrix("竖向朝左 (逆时针90度)", "0 -1 1 1 0 0 0 0 1"),
    RotationMatrix("竖向朝右 (顺时针90度)", "0 1 0 -1 0 1 0 0 1"),
    RotationMatrix("上下颠倒 (180度旋转)", "-1 0 1 0 -1 1 0 0 1")
  ]

  /** Table positions, named after their labels. */
  const NoRotation: nat := 0
  const Left: nat := 1
  const Right: nat := 2
  const UpsideDown: nat := 3

  /** The matrices the three turning entries' coefficient strings stand for;
      the first entry stands for `Identity`. */
  const QuarterLeft := Mat3(0, -1, 1, 1, 0, 0, 0, 0, 1)
  const QuarterRight := Mat3(0, 1, 0, -1, 0, 1, 0, 0, 1)
  const HalfTurn := Mat3(-1, 0, 1, 0, -1, 1, 0, 0, 1)

  /** The integer matrix entry `i`'s coefficient string stands for. */
  function TableMatrix(i: nat): (m: Mat3)
    requires i < |Rotations|
    ensures IsAffine(m)
  {
    if i == NoRotation then Identity
    else if i == Left then QuarterLeft
    else if i == Right then QuarterRight
    else HalfTurn
  }

  /** Each stored coefficient string parses to its entry's matrix. */
  lemma TableParses(i: nat)
    requires i < |Rotations|
    ensures ParseMatrix(Rotations[i].matrix) == Some(TableMatrix(i))
  {
    TableText(i);
    ParseRenderMatrix(TableMatrix(i));
  }

  /** Each stored coefficient string is the text form of its matrix. */
  lemma TableText(i: nat)
    requires i < |Rotations|
    ensures RenderMatrix(TableMatrix(i)) == Rotations[i].matrix
  {
    if i == NoRotation { NoRotationText(); }
    else if i == Left { LeftText(); }
    else if i == Right { RightText(); }
    else { UpsideDownText(); }
  }

  lemma NoRotationText()
    ensures RenderMatrix(Identity) == "1 0 0 0 1 0 0 0 1"
  {
    RenderMatrixTokens(Identity);
    SmallRenderings();
    var ts := Tokens(Identity);
    assert ts[0] == "1";
    assert ts[1] == "0";
    assert ts[2] == "0";
    assert ts[3] == "0";
    assert ts[4] == "1";
    assert ts[5] == "0";
    assert ts[6] == "0";
    assert ts[7] == "0";
    assert ts[8] == "1";
  }

  lemma LeftText()
    ensures RenderMatrix(QuarterLeft) == "0 -1 1 1 0 0 0 0 1"
  {
    RenderMatrixTokens(QuarterLeft);
    SmallRenderings();
    var ts := Tokens(QuarterLeft);
    assert ts[0] == "0";
    assert ts[1] == "-1";
    assert ts[2] == "1";
    assert ts[3] == "1";
    assert ts[4] == "0";
    assert ts[5] == "0";
    assert ts[6] == "0";
    assert ts[7] == "0";
    assert ts[8] == "1";
  }

  lemma RightText()
    ensures RenderMatrix(QuarterRight) == "0 1 0 -1 0 1 0 0 1"
  {
    RenderMatrixTokens(QuarterRight);
    SmallRenderings();
    var ts := Tokens(QuarterRight);
    assert ts[0] == "0";
    assert ts[1] == "1";
    assert ts[2] == "0";
    assert ts[3] == "-1";
    assert ts[4] == "0";
    assert ts[5] == "1";
    assert ts[6] == "0";
    assert ts[7] == "0";
    assert ts[8] == "1";
  }

  lemma UpsideDownText()
    ensures RenderMatrix(HalfTurn) == "-1 0 1 0 -1 1 0 0 1"
  {
    RenderMatrixTokens(HalfTurn);
    SmallRenderings();
    var ts := Tokens(HalfTurn);
    assert ts[0] == "-1";
    assert ts[1] == "0";
    assert ts[2] == "1";
    assert ts[3] == "0";
    assert ts[4] == "-1";
    assert ts[5] == "1";
    assert ts[6] == "0";
    assert ts[7] == "0";
    assert ts[8] == "1";
  }

  /** Every table matrix has coefficients in {-1, 0, 1} and is affine. */
  lemma TableEntriesSmall(i: nat)
    requires i < |Rotations|
    ensures forall k :: 0 <= k < 9 ==> Entries(TableMatrix(i))[k] in {-1, 0, 1}
    ensures Entries(TableMatrix(i))[6..] == [0, 0, 1]
  {
  }

  /** Every stored coefficient string is nine tokens one space apart, each
      `-1`, `0` or `1`, the last three `0 0 1`. */
  lemma TableTextForm(i: nat)
    requires i < |Rotations|
    ensures var ts := Split(Rotations[i].matrix);
      && |ts| == 9
      && (forall k :: 0 <= k < 9 ==> ts[k] in {"-1", "0", "1"})
      && ts[6..] == ["0", "0", "1"]
  {
    TableText(i);
    TableEntriesSmall(i);
    SmallTokens(TableMatrix(i));
  }

  /** A matrix with coefficients in {-1, 0, 1} and bottom row `0 0 1`
      renders as nine such tokens ending in `0 0 1`. */
  lemma SmallTokens(m: Mat3)
    requires forall k :: 0 <= k < 9 ==> Entries(m)[k] in {-1, 0, 1}
    requires Entries(m)[6..] == [0, 0, 1]
    ensures var ts := Split(RenderMatrix(m));
      && |ts| == 9
      && (forall k :: 0 <= k < 9 ==> ts[k] in {"-1", "0", "1"})
      && ts[6..] == ["0", "0", "1"]
  {
    SplitRender(m);
    TokensInRange(m);
    TokensBottomRow(m);
  }

  lemma TokensInRange(m: Mat3)
    requires forall k :: 0 <= k < 9 ==> Entries(m)[k] in {-1, 0, 1}
    ensures forall k :: 0 <= k < 9 ==> Tokens(m)[k] in {"-1", "0", "1"}
  {
    forall k | 0 <= k < 9 ensures Tokens(m)[k] in {"-1", "0", "1"} {
      SmallToken(Entries(m)[k]);
    }
  }

  lemma TokensBottomRow(m: Mat3)
    requires Entries(m)[6..] == [0, 0, 1]
    ensures Tokens(m)[6..] == ["0", "0", "1"]
  {
    var ts, es := Tokens(m), Entries(m);
    assert es[6] == 0 && es[7] == 0 && es[8] == 1 by {
      assert es[6] == es[6..][0] && es[7] == es[6..][1] && es[8] == es[6..][2];
    }
    SmallRenderings();
    assert ts[6] == "0" && ts[7] == "0" && ts[8] == "1";
    assert ts[6..] == [ts[6], ts[7], ts[8]];
  }

  lemma SmallToken(x: int)
    requires x in {-1, 0, 1}
    ensures IntToDecimal(x) in {"-1", "0", "1"}
  {
    SmallRenderings();
  }

  // ---------------------------------------------------------------------
  // What the labels promise, checked with exact integer arithmetic. Each
  // product is established on its own and the facts are then combined.

  lemma LeftTimesRight()
    ensures Mul(QuarterLeft, QuarterRight) == Identity
  {
  }

  lemma RightTimesLeft()
    ensures Mul(QuarterRight, QuarterLeft) == Identity
  {
  }

  lemma LeftTimesLeft()
    ensures Mul(QuarterLeft, QuarterLeft) == HalfTurn
  {
  }

  lemma RightTimesRight()
    ensures Mul(QuarterRight, QuarterRight) == HalfTurn
  {
  }

  lemma LeftTimesHalf()
    ensures Mul(QuarterLeft, HalfTurn) == QuarterRight
  {
  }

  /** "no rotation" is the identity. */
  lemma NoRotationIsIdentity()
    ensures TableMatrix(NoRotation) == Identity
  {
  }

  /** Turning left then right, or right then left, is no turn. */
  lemma LeftRightInverse()
    ensures Mul(QuarterLeft, QuarterRight) == Identity && Mul(QuarterRight, QuarterLeft) == Identity
  {
    LeftTimesRight();
    RightTimesLeft();
  }

  /** Two quarter turns the same way make the half turn. */
  lemma QuarterTurnsSquare()
    ensures Mul(QuarterLeft, QuarterLeft) == HalfTurn && Mul(QuarterRight, QuarterRight) == HalfTurn
  {
    LeftTimesLeft();
    RightTimesRight();
  }

  /** The half turn undoes itself. */
  lemma HalfTurnInvolution()
    ensures Mul(HalfTurn, HalfTurn) == Identity
  {
  }

  /** The clockwise quarter turn is three counter-clockwise ones. */
  lemma LeftThrice()
    ensures Mul(QuarterLeft, Mul(QuarterLeft, QuarterLeft)) == QuarterRight
  {
    LeftTimesLeft();
    LeftTimesHalf();
  }

  /** Four counter-clockwise quarter turns are no turn at all. */
  lemma LeftOrderFour()
    ensures Mul(QuarterLeft, Mul(QuarterLeft, Mul(QuarterLeft, QuarterLeft))) == Identity
  {
    LeftThrice();
    LeftTimesRight();
  }

  // ---------------------------------------------------------------------
  // The same facts stated on the table's entries by position.

  /** The entry "no rotation" leaves every entry unchanged, on either side. */
  lemma TableNoRotationNeutral(i: nat)
    requires i < |Rotations|
    ensures Mul(TableMatrix(NoRotation), TableMatrix(i)) == TableMatrix(i)
    ensures Mul(TableMatrix(i), TableMatrix(NoRotation)) == TableMatrix(i)
  {
    MulIdentity(TableMatrix(i));
  }

  /** Right then left is no rotation (`Mul(a, b)` applies `b` first). */
  lemma TableLeftRight()
    ensures Mul(TableMatrix(Left), TableMatrix(Right)) == TableMatrix(NoRotation)
  {
    assert TableMatrix(Left) == QuarterLeft && TableMatrix(Right) == QuarterRight;
    assert TableMatrix(NoRotation) == Identity;
    LeftTimesRight();
  }

  /** Left then right is no rotation. */
  lemma TableRightLeft()
    ensures Mul(TableMatrix(Right), TableMatrix(Left)) == TableMatrix(NoRotation)
  {
    assert TableMatrix(Left) == QuarterLeft && TableMatrix(Right) == QuarterRight;
    assert TableMatrix(NoRotation) == Identity;
    RightTimesLeft();
  }

  /** Two left turns are the upside-down entry. */
  lemma TableLeftTwice()
    ensures Mul(TableMatrix(Left), TableMatrix(Left)) == TableMatrix(UpsideDown)
  {
    assert TableMatrix(Left) == QuarterLeft && TableMatrix(UpsideDown) == HalfTurn;
    LeftTimesLeft();
  }

  /** Two right turns are the upside-down entry. */
  lemma TableRightTwice()
    ensures Mul(TableMatrix(Right), TableMatrix(Right)) == TableMatrix(UpsideDown)
  {
    assert TableMatrix(Right) == QuarterRight && TableMatrix(UpsideDown) == HalfTurn;
    RightTimesRight();
  }

  /** The upside-down entry applied twice is the "no rotation" entry. */
  lemma TableHalfTurnInvolution()
    ensures Mul(TableMatrix(UpsideDown), TableMatrix(UpsideDown)) == TableMatrix(NoRotation)
  {
    assert TableMatrix(UpsideDown) == HalfTurn && TableMatrix(NoRotation) == Identity;
    HalfTurnInvolution();
  }

  /** A left turn after the upside-down entry is the right entry, so three
      left turns are one right turn. */
  lemma TableLeftThrice()
    ensures Mul(TableMatrix(Left), TableMatrix(UpsideDown)) == TableMatrix(Right)
  {
    assert TableMatrix(Left) == QuarterLeft && TableMatrix(UpsideDown) == HalfTurn;
    assert TableMatrix(Right) == QuarterRight;
    LeftTimesHalf();
  }

  /** Every entry maps the normalised device area into itself. */
  lemma EntriesKeepUnitSquare(i: nat, p: Point)
    requires i < |Rotations|
    requires InUnitSquare(p)
    ensures InUnitSquare(Apply(TableMatrix(i), p))
  {
  }
}

=== FILE: rule_format.dfy ===
/** The udev rule `main` writes (src/main.rs:11, 54-58): Rust's `format!`
    applied to a raw-string template with one `{}` placeholder, the path
    the rule goes to, and a reader that recovers the matrix from a rule. */
module RuleFormat {
  import opened Options

  // ---------------------------------------------------------------------
  // format! on a template with positional `{}` holes

  predicate NoBraces(s: string) {
    '{' !in s && '}' !in s
  }

  /** `p` in front of a rendered result; nothing when rendering failed. */
  function Prepend(p: string, r: Option<string>): (q: Option<string>)
    ensures q.Some? <==> r.Some?
    ensures q.Some? ==> q.value == p + r.value
  {
    match r
    case Some(s) => Some(p + s)
    case None => None
  }

  /** The part of `format!` that src/main.rs:56 uses, applied to template
      `t` and arguments `args`: `{{` and `}}` stand for one brace each, `{}`
      takes the next argument verbatim, and all other characters are copied.
      A hole with no argument left or an argument left over is an error, as
      is any other brace use; holes with an index, a name or a format spec
      are outside this part and give `None` too. A template without braces
      renders as itself. */
  function Format(t: string, args: seq<string>): (r: Option<string>)
    ensures NoBraces(t) ==> r == (if |args| == 0 then Some(t) else None)
    decreases |t|
  {
    if |t| == 0 then
      if |args| == 0 then Some("") else None
    else if t[0] == '{' then
      if |t| >= 2 && t[1] == '{' then Prepend("{", Format(t[2..], args))
      else if |t| >= 2 && t[1] == '}' && |args| >= 1 then Prepend(args[0], Format(t[2..], args[1..]))
      else None
    else if t[0] == '}' then
      if |t| >= 2 && t[1] == '}' then Prepend("}", Format(t[2..], args))
      else None
    else
      assert NoBraces(t) ==> NoBraces(t[1..]) by {
        if NoBraces(t) {
          assert forall c :: c in t[1..] ==> c in t;
        }
      }
      var r := Prepend([t[0]], Format(t[1..], args));
      assert NoBraces(t) && |args| == 0 ==> [t[0]] + t[1..] == t;
      r
  }

  /** A character other than a brace is copied. */
  lemma FormatPlainChar(c: char, rest: string, args: seq<string>)
    requires c != '{' && c != '}'
    ensures Format([c] + rest, args) == Prepend([c], Format(rest, args))
  {
    assert ([c] + rest)[1..] == rest;
  }

  lemma PrependTwice(a: string, b: string, r: Option<string>)
    ensures Prepend(a, Prepend(b, r)) == Prepend(a + b, r)
  {
    if r.Some? {
      assert a + (b + r.value) == (a + b) + r.value;
    }
  }

  /** Brace-free text at the front of a template is copied unchanged. */
  lemma {:induction false} FormatLiteral(p: string, rest: string, args: seq<string>)
    requires NoBraces(p)
    ensures Format(p + rest, args) == Prepend(p, Format(rest, args))
    decreases |p|
  {
    if |p| > 0 {
      assert p[0] in p;
      assert forall c :: c in p[1..] ==> c in p;
      assert p + rest == [p[0]] + (p[1..] + rest);
      FormatPlainChar(p[0], p[1..] + rest, args);
      FormatLiteral(p[1..], rest, args);
      PrependTwice([p[0]], p[1..], Format(rest, args));
      assert [p[0]] + p[1..] == p;
    } else {
      assert p + rest == rest;
      PrependEmpty(Format(rest, args));
    }
  }

  lemma PrependEmpty(r: Option<string>)
    ensures Prepend("", r) == r
  {
    if r.Some? {
      assert "" + r.value == r.value;
    }
  }

  /** `{{` and `}}` render as a single brace. */
  lemma FormatEscapes(rest: string, args: seq<string>)
    ensures Format("{{" + rest, args) == Prepend("{", Format(rest, args))
    ensures Format("}}" + rest, args) == Prepend("}", Format(rest, args))
  {
    assert ("{{" + rest)[2..] == rest;
    assert ("}}" + rest)[2..] == rest;
  }

  /** `{}` takes the next argument verbatim, braces and all, and fails when
      there is none. */
  lemma FormatHole(rest: string, args: seq<string>)
    ensures |args| == 0 ==> Format("{}" + rest, args) == None
    ensures |args| >= 1 ==> Format("{}" + rest, args) == Prepend(args[0], Format(rest, args[1..]))
  {
    assert ("{}" + rest)[2..] == rest;
  }

  // ---------------------------------------------------------------------
  // The rule

  /** Where the rule goes (src/main.rs:11). */
  const RulePath: string := "/etc/udev/rules.d/" + "98-touchscreen-rotate.rules"

  /** The pieces of the rule. */
  const ActionMatch: string := "ACTION==\"add|change\", "
  const KernelMatch: string := "KERNEL==\"event[0-9]*\", "
  const TouchscreenKey: string := "ID_INPUT_" + "TOUCHSCREEN"
  const CalibrationKey: string := "LIBINPUT_" + "CALIBRATION_MATRIX"
  const IsTouchscreen: string := "==\"1\", "
  const AssignOpen: string := "=\""

  /** The rule template with `close` written after the `{}` hole. */
  function TemplateClosedBy(close: string): string {
    ActionMatch + (KernelMatch + ("ENV" + ("{{" + (TouchscreenKey + ("}}" + (IsTouchscreen +
    ("ENV" + ("{{" + (CalibrationKey + ("}}" + (AssignOpen + ("{}" + close))))))))))))
  }

  /** The raw-string template of src/main.rs:56: the assignment's opening
      quote is followed by the hole and nothing else; the `"#` after it
      closes the raw literal, so no closing quote is written. */
  const RuleTemplate: string := TemplateClosedBy("")

  /** Everything the rule holds before the matrix:
      `ACTION=="add|change", KERNEL=="event[0-9]*", ENV{ID_INPUT_TOUCHSCREEN}=="1", ENV{LIBINPUT_CALIBRATION_MATRIX}="`. */
  const RulePrefix: string :=
    ActionMatch + (KernelMatch + ("ENV" + ("{" + (TouchscreenKey + ("}" + (IsTouchscreen +
    ("ENV" + ("{" + (CalibrationKey + ("}" + AssignOpen))))))))))

  /** Text that `format!` copies unchanged and that stays on one line. */
  predicate Plain(s: string) {
    NoBraces(s) && '\n' !in s
  }

  lemma PlainConcat(a: string, b: string)
    ensures Plain(a + b) <==> Plain(a) && Plain(b)
  {
    assert forall c :: c in a + b <==> c in a || c in b;
  }

  lemma PlainActionMatch() ensures Plain(ActionMatch) {}
  lemma PlainKernelMatch() ensures Plain(KernelMatch) {}
  lemma PlainTouchscreenKey() ensures Plain(TouchscreenKey) { PlainConcat("ID_INPUT_", "TOUCHSCREEN"); }
  lemma PlainCalibrationKey() ensures Plain(CalibrationKey) { PlainConcat("LIBINPUT_", "CALIBRATION_MATRIX"); }
  lemma PlainIsTouchscreen() ensures Plain(IsTouchscreen) {}

  lemma PiecesArePlain()
    ensures Plain(ActionMatch) && Plain(KernelMatch) && Plain("ENV")
    ensures Plain(TouchscreenKey) && Plain(CalibrationKey)
    ensures Plain(IsTouchscreen) && Plain(AssignOpen)
  {
    PlainActionMatch();
    PlainKernelMatch();
    PlainTouchscreenKey();
    PlainCalibrationKey();
    PlainIsTouchscreen();
  }

  /** The prefix is one line: the rule ends where the matrix does. */
  lemma PlainRulePrefix()
    ensures '\n' !in RulePrefix
  {
    PiecesArePlain();
    var t := "}" + AssignOpen;
    PlainConcat(CalibrationKey, t);
    var u := CalibrationKey + t;
    PlainConcat("{", u);
    var v := "ENV" + ("{" + u);
    PlainConcat("ENV", "{" + u);
    var w := "}" + (IsTouchscreen + v);
    PlainConcat(IsTouchscreen, v);
    var x := TouchscreenKey + w;
    PlainConcat(TouchscreenKey, w);
    var y := "ENV" + ("{" + x);
    PlainConcat("ENV", "{" + x);
    PlainConcat(KernelMatch, y);
    PlainConcat(ActionMatch, KernelMatch + y);
    assert RulePrefix == ActionMatch + (KernelMatch + y);
  }

  /** The rendered clauses after the kernel match, given what follows the
      assignment's opening quote. */
  function EnvClauses(tail: string): string {
    "ENV" + ("{" + (TouchscreenKey + ("}" + (IsTouchscreen +
    ("ENV" + ("{" + (CalibrationKey + ("}" + (AssignOpen + tail)))))))))
  }

  lemma PrefixClauses(tail: string)
    ensures RulePrefix + tail == ActionMatch + (KernelMatch + EnvClauses(tail))
  {
  }

  /** Formatting the template with `m` renders the two `ENV{...}` keys with
      single braces and puts `m` verbatim between the opening quote and
      `close`. */
  lemma FormatTemplate(close: string, m: string)
    requires NoBraces(close)
    ensures Format(TemplateClosedBy(close), [m]) == Some(RulePrefix + (m + close))
  {
    PiecesArePlain();
    var args := [m];
    FormatHole(close, args);
    assert Format(close, args[1..]) == Some(close);
    var t1 := AssignOpen + ("{}" + close);
    FormatLiteral(AssignOpen, "{}" + close, args);
    var t2 := "}}" + t1;
    FormatEscapes(t1, args);
    var t3 := CalibrationKey + t2;
    FormatLiteral(CalibrationKey, t2, args);
    var t4 := "{{" + t3;
    FormatEscapes(t3, args);
    var t5 := "ENV" + t4;
    FormatLiteral("ENV", t4, args);
    var t6 := IsTouchscreen + t5;
    FormatLiteral(IsTouchscreen, t5, args);
    var t7 := "}}" + t6;
    FormatEscapes(t6, args);
    var t8 := TouchscreenKey + t7;
    FormatLiteral(TouchscreenKey, t7, args);
    var t9 := "{{" + t8;
    FormatEscapes(t8, args);
    var t10 := "ENV" + t9;
    FormatLiteral("ENV", t9, args);
    assert Format(t10, args) == Some(EnvClauses(m + close));
    var t11 := KernelMatch + t10;
    FormatLiteral(KernelMatch, t10, args);
    FormatLiteral(ActionMatch, t11, args);
    PrefixClauses(m + close);
  }

  /** The production template: the matrix is the last thing in the rule. */
  lemma FormatRuleTemplate(m: string)
    ensures Format(RuleTemplate, [m]) == Some(RulePrefix + m)
  {
    FormatTemplate("", m);
    assert m + "" == m;
  }

  /** The text `main` writes for the selected matrix string (src/main.rs:55-58). */
  function RuleContent(matrix: string): (r: string)
    ensures r == RulePrefix + matrix
  {
    FormatRuleTemplate(matrix);
    Format(RuleTemplate, [matrix]).UnwrapOr("")
  }

  /** The matrix string a rule of this form carries, if it has the form. */
  function MatrixOfRule(rule: string): (m: Option<string>)
    ensures m.Some? <==> |RulePrefix| <= |rule| && rule[..|RulePrefix|] == RulePrefix
  {
    if |RulePrefix| <= |rule| && rule[..|RulePrefix|] == RulePrefix then Some(rule[|RulePrefix|..])
    else None
  }

  /** The matrix can be read back from the rule, so different selections
      give different files. */
  lemma MatrixOfRuleContent(m: string)
    ensures MatrixOfRule(RuleContent(m)) == Some(m)
  {
    var r := RuleContent(m);
    assert r[..|RulePrefix|] == RulePrefix;
    assert r[|RulePrefix|..] == m;
  }

  lemma RuleContentInjective(a: string, b: string)
    ensures RuleContent(a) == RuleContent(b) <==> a == b
  {
    if RuleContent(a) == RuleContent(b) {
      MatrixOfRuleContent(a);
      MatrixOfRuleContent(b);
    }
  }

  /** Nothing follows the matrix: no closing quote and no line break, so
      the file ends with the matrix's last character. */
  lemma RuleEndsWithMatrix(m: string)
    ensures var r := RuleContent(m); |m| <= |r| && r[|r| - |m|..] == m
  {
    EndsWith(RulePrefix, m);
  }

  /** The rule is one line when the matrix is. */
  lemma RuleIsOneLine(m: string)
    requires '\n' !in m
    ensures '\n' !in RuleContent(m)
  {
    PlainRulePrefix();
    InConcat(RulePrefix, m, '\n');
  }

  lemma InConcat(a: string, b: string, c: char)
    ensures c in a + b <==> c in a || c in b
  {
  }

  lemma EndsWith(p: string, m: string)
    ensures (p + m)[|p + m| - |m|..] == m
  {
  }
}

=== FILE: whitespace.dfy ===
/** Rust's `str::trim`, applied to the line read from standard input before it
    is parsed (src/main.rs:46). It removes leading and trailing characters with
    the Unicode `White_Space` property, which includes the line terminator
    `read_line` leaves in the buffer. */
module Whitespace {

  /** `char::is_whitespace`: the Unicode `White_Space` code points. */
  predicate IsWhitespace(c: char) {
    || ('\U{9}' <= c <= '\U{D}')
    || c == ' '
    || c == '\U{85}'
    || c == '\U{A0}'
    || c == '\U{1680}'
    || ('\U{2000}' <= c <= '\U{200A}')
    || c == '\U{2028}'
    || c == '\U{2029}'
    || c == '\U{202F}'
    || c == '\U{205F}'
    || c == '\U{3000}'
  }

  predicate AllWhitespace(s: string) {
    forall i :: 0 <= i < |s| ==> IsWhitespace(s[i])
  }

  /** No whitespace at either end: what `trim` leaves behind. */
  predicate Trimmed(s: string) {
    |s| == 0 || (!IsWhitespace(s[0]) && !IsWhitespace(s[|s| - 1]))
  }

  /** `trim_start`: drops leading whitespace. */
  function TrimStart(s: string): (r: string)
    ensures |r| <= |s|
    decreases |s|
  {
    if |s| > 0 && IsWhitespace(s[0]) then TrimStart(s[1..]) else s
  }

  /** `trim_end`: drops trailing whitespace. */
  function TrimEnd(s: string): (r: string)
    ensures |r| <= |s|
    decreases |s|
  {
    if |s| > 0 && IsWhitespace(s[|s| - 1]) then TrimEnd(s[..|s| - 1]) else s
  }

  /** `trim_start` returns the longest suffix that does not start with
      whitespace: everything it cuts off is whitespace. */
  lemma {:induction false} TrimStartSpec(s: string)
    ensures var r := TrimStart(s);
      && r == s[|s| - |r|..]
      && AllWhitespace(s[..|s| - |r|])
      && (|r| == 0 || !IsWhitespace(r[0]))
    decreases |s|
  {
    if |s| > 0 && IsWhitespace(s[0]) {
      var t := s[1..];
      TrimStartSpec(t);
      var r := TrimStart(t);
      assert s[|s| - |r|..] == t[|t| - |r|..];
      forall i | 0 <= i < |s| - |r| ensures IsWhitespace(s[i]) {
        if i > 0 { assert s[i] == t[..|t| - |r|][i - 1]; }
      }
    }
  }

  /** `trim_end` returns the longest prefix that does not end with
      whitespace: everything it cuts off is whitespace. */
  lemma {:induction false} TrimEndSpec(s: string)
    ensures var r := TrimEnd(s);
      && r == s[..|r|]
      && AllWhitespace(s[|r|..])
      && (|r| == 0 || !IsWhitespace(r[|r| - 1]))
    decreases |s|
  {
    if |s| > 0 && IsWhitespace(s[|s| - 1]) {
      var t := s[..|s| - 1];
      TrimEndSpec(t);
      var r := TrimEnd(t);
      assert s[..|r|] == t[..|r|];
      forall i | |r| <= i < |s| ensures IsWhitespace(s[i]) {
        if i < |s| - 1 { assert s[i] == t[|r|..][i - |r|]; }
      }
    }
  }

  /** `trim`: the input with whitespace removed at both ends. What it removes
      is whitespace, and what it keeps is a contiguous piece of the input that
      neither starts nor ends with whitespace. */
  function Trim(s: string): (r: string)
    ensures Trimmed(r)
    ensures var k := |s| - |TrimStart(s)|;
      && k + |r| <= |s|
      && r == s[k..k + |r|]
      && AllWhitespace(s[..k])
      && AllWhitespace(s[k + |r|..])
  {
    var a := TrimStart(s);
    TrimStartSpec(s);
    TrimEndSpec(a);
    var r := TrimEnd(a);
    var k := |s| - |a|;
    assert r == s[k..k + |r|];
    assert s[k + |r|..] == a[|r|..];
    assert |r| > 0 ==> r[0] == a[0];
    r
  }

  /** Whitespace in front of a string is all that `trim_start` removes. */
  lemma {:induction false} TrimStartPadded(l: string, t: string)
    requires AllWhitespace(l)
    ensures TrimStart(l + t) == TrimStart(t)
    decreases |l|
  {
    if |l| > 0 {
      var s, l' := l + t, l[1..];
      assert s[0] == l[0];
      assert s[1..] == l' + t;
      assert AllWhitespace(l') by {
        forall i | 0 <= i < |l'| ensures IsWhitespace(l'[i]) { assert l'[i] == l[i + 1]; }
      }
      assert TrimStart(s) == TrimStart(s[1..]);
      TrimStartPadded(l', t);
    } else {
      assert l + t == t;
    }
  }

  /** Whitespace behind a string is all that `trim_end` removes. */
  lemma {:induction false} TrimEndPadded(t: string, r: string)
    requires AllWhitespace(r)
    ensures TrimEnd(t + r) == TrimEnd(t)
    decreases |r|
  {
    if |r| > 0 {
      var s, r' := t + r, r[..|r| - 1];
      assert s[|s| - 1] == r[|r| - 1];
      assert s[..|s| - 1] == t + r';
      assert AllWhitespace(r') by {
        forall i | 0 <= i < |r'| ensures IsWhitespace(r'[i]) { assert r'[i] == r[i]; }
      }
      assert TrimEnd(s) == TrimEnd(s[..|s| - 1]);
      TrimEndPadded(t, r');
    } else {
      assert t + r == t;
    }
  }

  /** `trim` undoes padding: surrounding a trimmed text with whitespace on
      either side does not change what `trim` returns. */
  lemma TrimPadded(l: string, core: string, r: string)
    requires AllWhitespace(l) && AllWhitespace(r) && Trimmed(core)
    ensures Trim(l + core + r) == core
  {
    TrimStartPadded(l, core + r);
    assert l + core + r == l + (core + r);
    if |core| == 0 {
      assert core + r == r;
      TrimStartPadded(r, []);
      assert r + [] == r;
      assert TrimStart(r) == [];
    } else {
      assert TrimStart(core + r) == core + r;
    }
    TrimEndPadded(core, r);
  }

  /** Trimming twice is trimming once. */
  lemma TrimIdempotent(s: string)
    ensures Trim(Trim(s)) == Trim(s)
  {
    var t := Trim(s);
    TrimPadded([], t, []);
    assert [] + t + [] == t;
  }
}
